=== FILE: README.md ===
# merge-settings, modelled in Dafny

merge-settings keeps a `Settings` store. Its parts are:

- a queue of config objects (`configs`);
- a key cache (`cache`) that `set(key, config)` writes;
- an optional `options.normalize` function.

`merge()` folds the queue into one fresh result object. It normalizes each
queued config first, then does two passes on it:

1. **Per-key rules** (index.js:193-215):
   - an object value is deep-merged onto the result's current value;
   - a non-empty array is stored when the result holds no array there, and otherwise calls `utils.union`;
   - a string or a boolean overwrites.
2. **Blanket deep merge** of the whole config onto the result (`utils.merge(res, obj)`, index.js:216).

The project is split into these modules:

- `JsValues` (values.dfy): JavaScript values without functions. It also gives the own properties that `for ... in` with `hasOwnProperty` visits. For an object these are its fields. For an array or a string they are the decimal indices. Any other value has none.
- `Utils` (utils.dfy): three of the five helpers that utils.js loads: `isobject`, `mixin-deep` and `arr-flatten`. Each is defined by the behaviour this model assumes of it, with lemmas about merging and flattening. The other two, `get-value` and `set-value` (utils.js:16, utils.js:19), are taken to read and replace the value at one own key of the cache. `MergeSettings` writes them inline as a map read (`Prop`) and a map update.
- `MergeFold` (merge.dfy):
  - `KeyRule`, the rule for one key;
  - `Step`, one turn of the merge loop;
  - `Fold`, the whole fold;
  - `ApplyKeyRules`, the imperative `for ... in` loop, proved equal to the per-key pass;
  - the fold laws.
- `MergeSettings` (settings.dfy): the `Settings` class. Its `configs` and `cache` fields are updated in place by `Set`, `AddConfig`, `AddConfigs` and `Merge`. Each method is proved against a pure `Store` function: `AddEffect` or `AddConfigsEffect` for the adders, and `Merged` for `Merge`.
- `Scenarios` (scenarios.dfy): the behaviours that test.js checks, plus laws of the fold on small inputs. The laws are stated over arbitrary keys and values.

Where the code and its description disagree, the model follows the code:

- **`utils.union` is never registered.** utils.js:15-19 registers `flatten`, `get`, `isObject`, `merge` and `set`, but not `union`. So the array rule at index.js:206 throws instead of taking a union. `Merge` returns `Failure(UnionIsNotAFunction)` whenever a non-empty array meets an array already in the result (`MergeFold.StepFailsIff`, `Scenarios.ArraysAtSameKeyFail`).
- **An own `hasOwnProperty` key throws.** index.js:194 calls `obj.hasOwnProperty(key)` on the entry itself. An object entry with its own property named `hasOwnProperty` hides that method, and no value in a config is a function. So the call throws at the first key visited, before any rule runs. `Merge` returns `Failure(HasOwnPropertyIsNotAFunction)` for such an entry (`MergeFold.StepFailsIff`, `MergeFold.StepFromEmpty`).
- **An empty array does overwrite.** The per-key rules skip it, but the blanket merge at index.js:216 then stores it (`MergeFold.StepAt`, `Scenarios.EmptyArrayOverwrites`). Numbers and `null` behave the same way.
- **Only the first argument of `merge` can be a normalizer.** The doc comment of `merge` (index.js:145-147) also names the second argument, but only the first is tested for being a function (index.js:180).

For an object entry, `MergeFold.StepOfObjectIsDeepMerge` shows that a successful step is one deep merge of the entry onto the result. The per-key rules add nothing to the blanket merge except two ways of failing: the `hasOwnProperty` call and the array rule.

## Model

| member | source | states |
|---|---|---|
| JsValues.Indexed | index.js:193-194 | the properties that `for ... in` visits on an array or string are exactly its decimal indices, each holding the element at that index |
| JsValues.DecimalInjective | index.js:193-194 | distinct indices have distinct property names, so no element of an array entry hides another |
| Utils.Flatten | utils.js:15 | the flattened list holds no arrays |
| Utils.FlattenAppend | index.js:134 | flattening the argument list distributes over concatenation |
| Utils.FlattenFlat | index.js:134 | a list without arrays is left as it is by flattening |
| Utils.FlattenIdempotent | index.js:134 | flattening twice is flattening once |
| Utils.MixinDeepAt | utils.js:18 | the deep merge has the keys of both objects; a source property wins, merged recursively when both sides are objects; other target properties are kept |
| Utils.MixinDeepIntoEmpty | index.js:198 | `merge({}, src)` is a copy of `src` |
| Utils.MixinDeepSelf | utils.js:18 | merging an object onto itself changes nothing |
| Utils.MixinDeepIdempotent | index.js:216 | merging the same config twice equals merging it once |
| MergeFold.PassOverExtend | index.js:193-215 | running one more key's rule changes only that key, and the rule reads the value the key had before the pass |
| MergeFold.ApplyKeyRules | index.js:193-215 | the key loop gives the per-key pass in whatever order the keys are visited: it fails at its first key when the entry owns `hasOwnProperty`, fails when some key's rule reaches `utils.union`, and otherwise returns the result of every key's rule |
| MergeFold.ArrayRuleFaultsIff | index.js:202-207 | the array rule throws for some key if and only if the entry owns a non-empty array at a key where the result already holds an array |
| MergeFold.StepFailsIff | index.js:193-207 | a step fails if and only if the entry owns `hasOwnProperty` or owns a non-empty array at a key where the result already holds an array; an own `hasOwnProperty` always gives `HasOwnPropertyIsNotAFunction` |
| MergeFold.StepAt | index.js:193-216 | what one step leaves at a key: unowned keys are kept; objects are merged onto the prior object; strings, booleans and non-empty arrays are stored; in an object entry every other value is stored too; in an array or string entry those leave the key alone |
| MergeFold.StepOfObjectIsDeepMerge | index.js:197-216 | for an object entry, a successful step equals one deep merge of the entry onto the result |
| MergeFold.StepFromEmpty | index.js:188-216 | the first object merged onto the empty result is copied as it is, unless it owns `hasOwnProperty`, which makes the step throw |
| MergeFold.FoldAppend | index.js:190-217 | folding `q1 + q2` is folding `q1`, then continuing over `q2` in queue order |
| MergeFold.FoldFromFailure | index.js:206 | once the merge has thrown, later entries do not change the outcome |
| MergeFold.FoldNext | index.js:190-191 | folding one more queued entry is one more step on the normalized entry |
| MergeFold.FoldFailureSticks | index.js:190-217 | a failure on a prefix of the queue is the outcome of the whole merge |
| MergeFold.FoldPrefixSucceeds | index.js:190-217 | a successful merge has folded every prefix of the queue successfully |
| MergeFold.FoldUntouched | index.js:193-216 | a key that no later entry owns keeps the value it had |
| MergeFold.StepStores | index.js:211-216 | one step stores a string, a boolean, or (from an object entry) any non-object value exactly as the entry gives it |
| MergeFold.FoldKeepsKeys | index.js:190-217 | merging never drops a key: a key present after some prefix of the queue is present in the result |
| MergeFold.LastWriteWins | index.js:211-216 | when the last entry owning a key holds a string, a boolean, or (in an object entry) any non-object value there, that value is the merged value |
| MergeFold.FoldSucceedsWhenSafe | index.js:193-207 | when no normalized entry owns `hasOwnProperty` or a non-empty array, merging cannot fail |
| MergeFold.ShadowedEntryFails | index.js:190-194 | an entry anywhere in the queue that owns `hasOwnProperty` makes the whole merge fail |
| MergeFold.FoldKeysOwned | index.js:193-216 | every key of the result is an own property of some normalized entry |
| MergeSettings.AddEachQueue | index.js:133-141 | adding a list appends exactly one entry per element, in order, after the existing queue |
| MergeSettings.EntriesOfNonStrings | index.js:116 | values that are not strings are queued as they are |
| MergeSettings.AddEachAppend | index.js:137-139 | adding `xs + ys` is adding `xs` and then `ys` |
| MergeSettings.AddConfigsQueue | index.js:133-141 | `addConfigs` keeps the old queue as a prefix and appends one entry per flattened argument, in argument order |
| MergeSettings.AddConfigsPlain | index.js:133-141 | configs that are neither arrays nor strings are queued exactly as given |
| MergeSettings.AddConfigsNesting | index.js:134 | `addConfigs(a, b, c)` and `addConfigs([a, [b, c]])` give the same store |
| MergeSettings.AddEffectAppends | index.js:52-141 | every way of adding only appends to the queue, and adds at least one entry unless an empty list is spread |
| MergeSettings.Settings.constructor | index.js:15-19 | a new store has an empty queue and an empty cache |
| MergeSettings.Settings.Normalize | index.js:29-34 | the user's normalizer is applied when it is a function; otherwise the config is returned unchanged |
| MergeSettings.Settings.GetRaw | index.js:87-89 | a key never set reads as `undefined`; otherwise the cached value |
| MergeSettings.Settings.Get | index.js:72-74 | the cached value, passed through the normalizer |
| MergeSettings.Settings.Set | index.js:52-59 | with a string key, the config is queued and cached under the key, and `getRaw(key)` then returns it; otherwise it acts as `addConfig`; returns the store itself |
| MergeSettings.Settings.AddConfig | index.js:107-118 | a string goes to `set`; an array or several arguments go to `addConfigs`; one plain config is queued and the cache is untouched; returns the store itself |
| MergeSettings.Settings.AddConfigs | index.js:133-141 | the store afterwards is each flattened argument added in turn |
| MergeSettings.Settings.Merge | index.js:177-219 | a truthy first argument is added first, and otherwise the store is unchanged; the result is the fold of the queue under the chosen normalizer; an empty queue gives `{}` |
| Scenarios.AddThreeConfigs | test.js:65-71 | `addConfigs({a:'b'}, {c:'d'}, {e:'f'})` queues the three objects in argument order |
| Scenarios.FourConfigsSucceed | test.js:73-78 | merging `{a:b}, {c:d}, {e:f}, {a:z}` cannot fail |
| Scenarios.FourConfigsA | test.js:73-78 | the later `{a: z}` wins at `a` |
| Scenarios.FourConfigsC | test.js:73-78 | `c` keeps the only string given for it |
| Scenarios.FourConfigsE | test.js:73-78 | `e` keeps the only string given for it |
| Scenarios.FourConfigsKeys | test.js:73-78 | every key of the merged result is `a`, `c` or `e` |
| Scenarios.FourConfigsOnly | test.js:73-78 | the merged result holds no key besides `a`, `c` and `e` |
| Scenarios.FourConfigsFold | test.js:73-78 | for any distinct keys other than `hasOwnProperty` and any strings, the fold gives `{a: z, c: d, e: f}` |
| Scenarios.FourConfigsQueued | test.js:73-74 | a new store's `addConfigs` queues the four configs exactly as given |
| Scenarios.FourConfigsMerged | test.js:73-78 | adding the four configs to a new store and merging gives `{a:'z', c:'d', e:'f'}` |
| Scenarios.MergeMultipleConfigs | test.js:73-78 | the same, through the `Settings` methods |
| Scenarios.NormalizerAddsDefault | test.js:100-105 | a normalizer that adds `license: 'MIT'` makes `license` appear in the merged result |
| Scenarios.LicenseFold | test.js:100-105 | with the schema normalizer, `{a: 'b'}` folds to a result whose `license` is `'MIT'` |
| Scenarios.PluginsFold | test.js:107-111 | with the schema normalizer, `{plugins: 'abc'}` folds to a result whose `plugins` is `['abc']` |
| Scenarios.NormalizerShapesPlugins | test.js:107-111 | the same, through the `Settings` methods |
| Scenarios.MergeTwice | index.js:177-219 | two `merge()` calls with nothing added between them agree, and leave the store as it was |
| Scenarios.FoldTwo | index.js:190-217 | a two-entry queue is folded as two steps from the empty result |
| Scenarios.MergeAtOneKey | utils.js:18 | two objects with one shared key holding objects merge those objects at that key |
| Scenarios.MergeOverwrites | utils.js:18 | a non-object source value replaces the target value |
| Scenarios.MergeDisjoint | utils.js:18 | objects with distinct keys merge to their union |
| Scenarios.ObjectsMergeDeeply | index.js:197-199 | for a key `a` other than `hasOwnProperty`, merging `{a: {x: vx}}` then `{a: {y: vy}}` gives `{a: {x: vx, y: vy}}` |
| Scenarios.ArraysAtSameKeyFail | index.js:202-207 | two non-empty arrays at the same key (other than `hasOwnProperty`) make `merge` throw from `utils.union` |
| Scenarios.EmptyArrayOverwrites | index.js:202-216 | an empty array still replaces the prior value at its key (other than `hasOwnProperty`), through the blanket merge |

## Left out

- The helper packages (`isobject`, `mixin-deep`, `arr-flatten`, `get-value`, `set-value`) are not part of this model. `Utils` defines the behaviour assumed of the first three.
- MergeSettings.Settings.Set: `utils.set(cache, key, config)` is assumed to replace the value at one own key of the cache. The key is one property name: the dotted paths of `set-value` (`'a.b'` writing a nested object) are not modelled. The package is not part of this model.
- MergeSettings.Settings.GetRaw: `utils.get(cache, key)` is assumed to read one own key of the cache, and dotted paths are not followed. The cache starts as `{}` (index.js:18), which inherits names such as `toString` and `constructor`. For a key never set, the program can therefore return an inherited value (`getRaw('toString')` gives a function), where the model gives `undefined`. `MergeSettings.Settings.Get` inherits both gaps.
- Aliasing is not modelled. Values are immutable, so the object that `set` puts in both the queue and the cache is not shared. Updates that `mixin-deep` makes in place to a queued object are not seen through other references either.
- MergeFold.Fold: because of that, it can differ from what `merge` itself returns when a queued object appears twice. `utils.merge({}, res[key], val)` at index.js:198 copies `res[key]` only one level deep, so a nested object inside it stays shared with an earlier entry, and later merges update that entry in place. For the queue `[x, y, x]` with `x = {a: {b: {c: 1}}}` and `y = {a: {b: {c: 2}}}`, the program returns `c: 2` and the model returns `c: 1`. After such a merge, `getRaw` on a key cached with `x` also returns the changed object in the program, but not in the model.
- JsValues.OwnEntries: a string entry is a sequence of Unicode scalar values, while `for ... in` over a JavaScript string visits one index per UTF-16 code unit. A character outside the Basic Multilingual Plane therefore gives one index here but two in the program, with different values at the indices. Lone surrogates cannot be represented at all.
- JavaScript numbers are modelled as integers. Floating point, `NaN` and `-0` are not modelled.
- Function values inside configs are not modelled, nor is a normalizer passed as a later argument of `merge`. The only function a store uses is its normalizer.
- Symbols, inherited enumerable properties and prototype-polluting keys such as `__proto__` are not modelled. `OwnEntries` gives own properties only.
- The order of keys in the merged object is not modelled. Objects are maps, so key order is ignored.
- The constructor keeps only `options.normalize`, and only when it is a function. Other options are not modelled.
- `Scenarios.SchemaDefaults` stands in for the map-schema normalizer of test.js:83-97. It covers only the `plugins` and `license` fields that the tests use. The map-schema package is not part of this model.
- `set`, `addConfig` and `addConfigs` return `this` for chaining. They are modelled as methods that return the object itself (`self == this`).
- Two TypeErrors are modelled as the `Failure` outcome of `merge`: calling the missing `utils.union` (index.js:206) and calling an own `hasOwnProperty` that is not a function (index.js:194). No other exception is modelled.

=== FILE: merge.dfy ===
/** The fold at the heart of `Settings.prototype.merge` (index.js:177-219):
    every queued config, normalized, is folded in queue order into a fresh
    accumulator `res`. For one normalized entry `obj` the fold first runs the
    per-key rules over the own properties of `obj` (index.js:193-215), then
    deep-merges the whole of `obj` onto `res` (index.js:216). */
module MergeFold {
  import opened JsValues
  import opened Utils

  /** The two TypeErrors that escape the loop of `merge`:
      - the array rule calls `utils.union` (index.js:206), which utils.js
        never registers;
      - the own-property test `obj.hasOwnProperty(key)` (index.js:194) finds
        an own property named `hasOwnProperty` that is not a function. */
  datatype MergeError = UnionIsNotAFunction | HasOwnPropertyIsNotAFunction

  datatype Result<T> = Success(value: T) | Failure(error: MergeError)

  /** What the per-key rules do to `res[key]`. */
  datatype KeyOutcome = Assign(v: Value) | Keep | Fault

  /** The rules of index.js:197-213 for a property `val` when `res[key]` is
      `cur`, first match wins: an object becomes `utils.merge({}, cur, val)`;
      a non-empty array replaces a non-array and reaches `utils.union` on an
      array; a string or boolean overwrites; anything else is left to the
      blanket merge. */
  function KeyRule(cur: Value, val: Value): KeyOutcome {
    if IsObject(val) then Assign(Obj(MixinDeep(MixinDeep(map[], cur), val)))
    else if val.Arr? && |val.elems| > 0 then
      if !cur.Arr? then Assign(val) else Fault
    else if val.Str? || val.Bool? then Assign(val)
    else Keep
  }

  /** The prior accumulator value that an object rule keeps: its properties
      when it is an object, none otherwise. */
  function Base(cur: Value): map<string, Value> {
    if IsObject(cur) then cur.fields else map[]
  }

  /** The keys among `done` whose rule assigns. */
  function AssignedKeys(res: map<string, Value>, entries: map<string, Value>, done: set<string>): set<string> {
    set k | k in done && k in entries && KeyRule(Prop(res, k), entries[k]).Assign?
  }

  /** `res` after the per-key rules have run for the keys in `done`. */
  function PassOver(res: map<string, Value>, entries: map<string, Value>, done: set<string>): map<string, Value> {
    var written := AssignedKeys(res, entries, done);
    map k | k in res.Keys + written ::
      if k in written then KeyRule(Prop(res, k), entries[k]).v else res[k]
  }

  /** Running the rule for one more key changes at most that key, and the
      rule reads the value the key had before the pass. */
  lemma PassOverExtend(res: map<string, Value>, entries: map<string, Value>, done: set<string>, key: string)
    requires key in entries && key !in done
    ensures Prop(PassOver(res, entries, done), key) == Prop(res, key)
    ensures PassOver(res, entries, done + {key}) ==
      match KeyRule(Prop(res, key), entries[key])
      case Assign(v) => PassOver(res, entries, done)[key := v]
      case _ => PassOver(res, entries, done)
  {
    var before := AssignedKeys(res, entries, done);
    var after := AssignedKeys(res, entries, done + {key});
    assert after == before + (if KeyRule(Prop(res, key), entries[key]).Assign? then {key} else {});
  }

  /** The entry owns a property named `hasOwnProperty`, which hides the
      method that index.js:194 calls; no value of the model is a function. */
  predicate Shadows(obj: Value) {
    obj.Obj? && "hasOwnProperty" in obj.fields
  }

  /** Some key of `entries` reaches `utils.union`. */
  predicate Faults(res: map<string, Value>, entries: map<string, Value>) {
    exists k | k in entries :: KeyRule(Prop(res, k), entries[k]).Fault?
  }

  /** The per-key pass over all own properties: each key's rule reads only
      `res[key]`, so the order in which `for ... in` visits keys does not
      matter; one faulting key aborts the whole merge. When `shadowed`, the
      own-property test throws at the first key visited, before any rule. */
  function KeyPass(res: map<string, Value>, entries: map<string, Value>, shadowed: bool): Result<map<string, Value>> {
    if shadowed && entries != map[] then Failure(HasOwnPropertyIsNotAFunction)
    else if Faults(res, entries) then Failure(UnionIsNotAFunction)
    else Success(PassOver(res, entries, entries.Keys))
  }

  /** One turn of the `while` loop of index.js:190-217 for the normalized
      entry `obj`. */
  function Step(res: map<string, Value>, obj: Value): Result<map<string, Value>> {
    match KeyPass(res, OwnEntries(obj), Shadows(obj))
    case Failure(e) => Failure(e)
    case Success(res') => Success(MixinDeep(res', obj))
  }

  /** The accumulator after folding the whole queue `q`, each entry passed
      through `norm` first; a failure stops the fold. */
  function Fold(norm: Value -> Value, q: seq<Value>): Result<map<string, Value>>
    decreases |q|
  {
    if q == [] then Success(map[])
    else Then(Fold(norm, q[..|q| - 1]), norm, q[|q| - 1])
  }

  /** One more entry folded onto an outcome. */
  function Then(r: Result<map<string, Value>>, norm: Value -> Value, x: Value): Result<map<string, Value>> {
    match r
    case Failure(e) => Failure(e)
    case Success(res) => Step(res, norm(x))
  }

  /** Continue a fold from the outcome `r` over the entries `q`, front first. */
  function FoldFrom(r: Result<map<string, Value>>, norm: Value -> Value, q: seq<Value>): Result<map<string, Value>>
    decreases |q|
  {
    if q == [] then r else FoldFrom(Then(r, norm, q[0]), norm, q[1..])
  }

  /** The nested `for (var key in obj)` loop of index.js:193-215: runs the
      per-key rules for every own property of the entry, `entries` being
      `OwnEntries(obj)` and `shadowed` being `Shadows(obj)`, against the
      accumulator `res`. */
  method ApplyKeyRules(res: map<string, Value>, entries: map<string, Value>, shadowed: bool)
    returns (r: Result<map<string, Value>>)
    ensures r == KeyPass(res, entries, shadowed)
  {
    var keys := entries.Keys;
    var acc := res;
    while keys != {}
      invariant keys <= entries.Keys
      invariant acc == PassOver(res, entries, entries.Keys - keys)
      invariant forall k | k in entries.Keys - keys :: !KeyRule(Prop(res, k), entries[k]).Fault?
      invariant shadowed ==> keys == entries.Keys
      decreases keys
    {
      var key :| key in keys;
      if shadowed {
        return Failure(HasOwnPropertyIsNotAFunction);
      }
      var val := entries[key];
      ghost var done := entries.Keys - keys;
      PassOverExtend(res, entries, done, key);
      ghost var rule := KeyRule(Prop(res, key), val);
      if IsObject(val) {
        acc := acc[key := Obj(MixinDeep(MixinDeep(map[], Prop(acc, key)), val))];
        assert rule.Assign? && acc == PassOver(res, entries, done)[key := rule.v];
      } else if val.Arr? && |val.elems| > 0 {
        if !Prop(acc, key).Arr? {
          acc := acc[key := val];
          assert rule == Assign(val);
        } else {
          assert rule.Fault?;
          return Failure(UnionIsNotAFunction);
        }
      } else if val.Str? || val.Bool? {
        acc := acc[key := val];
        assert rule == Assign(val);
      } else {
        assert rule == Keep;
      }
      keys := keys - {key};
      assert entries.Keys - keys == done + {key};
      assert !rule.Fault?;
    }
    assert entries.Keys - keys == entries.Keys;
    assert shadowed ==> entries == map[];
    return Success(acc);
  }

  /** A step throws exactly in two cases: the entry owns `hasOwnProperty`
      (index.js:194), or it owns a non-empty array where the accumulator
      already holds an array (index.js:206). The rules never fault on an
      empty array, a string, a boolean, a number, null or an object. */
  lemma StepFailsIff(res: map<string, Value>, obj: Value)
    ensures Shadows(obj) ==> Step(res, obj) == Failure(HasOwnPropertyIsNotAFunction)
    ensures Step(res, obj).Failure? <==>
      (Shadows(obj) ||
       exists k | k in OwnEntries(obj) ::
         OwnEntries(obj)[k].Arr? && |OwnEntries(obj)[k].elems| > 0 && Prop(res, k).Arr?)
  {
    if Shadows(obj) {
      assert "hasOwnProperty" in OwnEntries(obj);
    } else {
      ArrayRuleFaultsIff(res, OwnEntries(obj));
    }
  }

  /** The array rule is the only rule that faults. */
  lemma ArrayRuleFaultsIff(res: map<string, Value>, e: map<string, Value>)
    ensures Faults(res, e) <==>
      exists k | k in e :: e[k].Arr? && |e[k].elems| > 0 && Prop(res, k).Arr?
  {
    if Faults(res, e) {
      var k :| k in e && KeyRule(Prop(res, k), e[k]).Fault?;
      assert e[k].Arr? && |e[k].elems| > 0 && Prop(res, k).Arr?;
    } else {
      forall k | k in e ensures !(e[k].Arr? && |e[k].elems| > 0 && Prop(res, k).Arr?) {
        assert !KeyRule(Prop(res, k), e[k]).Fault?;
      }
    }
  }

  /** What one successful step leaves at key `k`:
      - a key that `obj` does not own keeps its value;
      - an object value becomes a fresh object combining the prior value
        (when an object) with the new one;
      - a string, a boolean or a non-empty array is stored as given;
      - when `obj` is itself an object, every other value (number, null,
        empty array) is stored as given too, by the blanket merge;
      - in an array or string entry such values leave the key alone. */
  lemma StepAt(res: map<string, Value>, obj: Value, k: string)
    requires Step(res, obj).Success?
    ensures var r := Step(res, obj).value; var e := OwnEntries(obj);
      && (k !in e ==> Prop(r, k) == Prop(res, k))
      && (k in e && IsObject(e[k]) ==>
            k in r && r[k] == Obj(MixinDeep(Base(Prop(res, k)), e[k])))
      && (k in e && !IsObject(e[k]) &&
          (e[k].Str? || e[k].Bool? || (e[k].Arr? && |e[k].elems| > 0) || IsObject(obj)) ==>
            k in r && r[k] == e[k])
      && (k in e && !IsObject(obj) && !IsObject(e[k]) &&
          !(e[k].Str? || e[k].Bool? || (e[k].Arr? && |e[k].elems| > 0)) ==>
            Prop(r, k) == Prop(res, k))
  {
    var e := OwnEntries(obj);
    var p := PassOver(res, e, e.Keys);
    assert KeyPass(res, e, Shadows(obj)) == Success(p);
    var r := Step(res, obj).value;
    assert r == MixinDeep(p, obj);
    var cur := Prop(res, k);
    if k in e && IsObject(e[k]) {
      var merged := MixinDeep(MixinDeep(map[], cur), e[k]);
      assert k in AssignedKeys(res, e, e.Keys);
      assert p[k] == Obj(merged);
      if IsObject(cur) {
        MixinDeepIntoEmpty(cur.fields);
      }
      assert MixinDeep(map[], cur) == Base(cur);
      if IsObject(obj) {
        MixinDeepAt(p, e, k);
        MixinDeepIdempotent(Base(cur), e[k]);
      }
    } else if k in e && IsObject(obj) {
      MixinDeepAt(p, e, k);
    } else if k !in e && IsObject(obj) {
      MixinDeepAt(p, e, k);
    }
  }

  /** For an object entry the two passes together amount to one deep merge
      of the entry onto the accumulator: the blanket merge of index.js:216
      never undoes what the per-key rules stored, and the per-key rules add
      nothing to it except the failure at index.js:206. */
  lemma StepOfObjectIsDeepMerge(res: map<string, Value>, f: map<string, Value>)
    requires Step(res, Obj(f)).Success?
    ensures Step(res, Obj(f)).value == MixinDeep(res, Obj(f))
  {
    var r := Step(res, Obj(f)).value;
    var m := MixinDeep(res, Obj(f));
    forall k | k in res.Keys + f.Keys ensures k in r && r[k] == m[k] {
      StepAt(res, Obj(f), k);
      MixinDeepAt(res, f, k);
      if k in f && IsObject(f[k]) && !(k in res && IsObject(res[k])) {
        MixinDeepIntoEmpty(f[k].fields);
      }
    }
    forall k | k in r ensures k in res.Keys + f.Keys {
      StepAt(res, Obj(f), k);
    }
    assert r.Keys == m.Keys by {
      MixinDeepAt(res, f, "");
    }
  }

  /** The first object merged onto the empty accumulator is copied as it
      is: nothing in the empty accumulator is an array, so no rule faults.
      Only an own `hasOwnProperty` makes it throw. */
  lemma StepFromEmpty(f: map<string, Value>)
    ensures Step(map[], Obj(f)) ==
      if "hasOwnProperty" in f then Failure(HasOwnPropertyIsNotAFunction) else Success(f)
  {
    StepFailsIff(map[], Obj(f));
    if "hasOwnProperty" !in f {
      StepOfObjectIsDeepMerge(map[], f);
      MixinDeepIntoEmpty(f);
    }
  }

  /** Folding `q1 + q2` is folding `q1` and then continuing, entry by entry
      in queue order, over `q2`. */
  lemma {:induction false} FoldAppend(norm: Value -> Value, q1: seq<Value>, q2: seq<Value>)
    ensures Fold(norm, q1 + q2) == FoldFrom(Fold(norm, q1), norm, q2)
    decreases |q2|
  {
    if q2 == [] {
      assert q1 + q2 == q1;
    } else {
      var q1' := q1 + [q2[0]];
      assert q1'[..|q1'| - 1] == q1;
      assert Fold(norm, q1') == Then(Fold(norm, q1), norm, q2[0]);
      assert q1 + q2 == q1' + q2[1..];
      FoldAppend(norm, q1', q2[1..]);
    }
  }

  /** Once the fold has failed, later entries cannot recover it. */
  lemma {:induction false} FoldFromFailure(e: MergeError, norm: Value -> Value, q: seq<Value>)
    ensures FoldFrom(Failure(e), norm, q) == Failure(e)
    decreases |q|
  {
    if q != [] {
      FoldFromFailure(e, norm, q[1..]);
    }
  }

  /** Folding one more entry of the queue is one more step. */
  lemma FoldNext(norm: Value -> Value, q: seq<Value>, i: nat, res: map<string, Value>)
    requires i < |q|
    requires Fold(norm, q[..i]) == Success(res)
    ensures Fold(norm, q[..i + 1]) == Step(res, norm(q[i]))
  {
    assert q[..i + 1][..i] == q[..i];
  }

  /** A failure on a prefix of the queue is the failure of the whole fold. */
  lemma FoldFailureSticks(norm: Value -> Value, q: seq<Value>, n: nat)
    requires n <= |q|
    requires Fold(norm, q[..n]).Failure?
    ensures Fold(norm, q) == Fold(norm, q[..n])
  {
    FoldAppend(norm, q[..n], q[n..]);
    assert q[..n] + q[n..] == q;
    FoldFromFailure(Fold(norm, q[..n]).error, norm, q[n..]);
  }

  /** A successful fold has folded every prefix successfully. */
  lemma {:induction false} FoldPrefixSucceeds(norm: Value -> Value, q: seq<Value>, n: nat)
    requires n <= |q|
    requires Fold(norm, q).Success?
    ensures Fold(norm, q[..n]).Success?
  {
    FoldAppend(norm, q[..n], q[n..]);
    assert q[..n] + q[n..] == q;
    if Fold(norm, q[..n]).Failure? {
      FoldFromFailure(Fold(norm, q[..n]).error, norm, q[n..]);
    }
  }

  /** A key that no entry from position `n` on owns keeps, through the rest
      of the fold, the value it had after the first `n` entries. */
  lemma {:induction false} FoldUntouched(norm: Value -> Value, q: seq<Value>, n: nat, k: string)
    requires n <= |q|
    requires Fold(norm, q).Success?
    requires forall j | n <= j < |q| :: k !in OwnEntries(norm(q[j]))
    ensures Fold(norm, q[..n]).Success?
    ensures Prop(Fold(norm, q).value, k) == Prop(Fold(norm, q[..n]).value, k)
    decreases |q|
  {
    FoldPrefixSucceeds(norm, q, n);
    if n < |q| {
      var p := q[..|q| - 1];
      FoldPrefixSucceeds(norm, q, |q| - 1);
      assert q[..|q| - 1] == p;
      StepAt(Fold(norm, p).value, norm(q[|q| - 1]), k);
      assert p[..n] == q[..n];
      FoldUntouched(norm, p, n, k);
    } else {
      assert q[..n] == q;
    }
  }

  /** Merging never drops a key: a key present after the first `n` entries
      is still present once the whole queue has been folded. */
  lemma {:induction false} FoldKeepsKeys(norm: Value -> Value, q: seq<Value>, n: nat, k: string)
    requires n <= |q|
    requires Fold(norm, q).Success?
    requires Fold(norm, q[..n]).Success? && k in Fold(norm, q[..n]).value
    ensures k in Fold(norm, q).value
    decreases |q|
  {
    if n < |q| {
      var p := q[..|q| - 1];
      FoldPrefixSucceeds(norm, q, |q| - 1);
      assert q[..|q| - 1] == p;
      assert p[..n] == q[..n];
      FoldKeepsKeys(norm, p, n, k);
      var res := Fold(norm, p).value;
      var obj := norm(q[|q| - 1]);
      assert Fold(norm, q) == Step(res, obj);
      var e := OwnEntries(obj);
      assert KeyPass(res, e, Shadows(obj)) == Success(PassOver(res, e, e.Keys));
    } else {
      assert q[..n] == q;
    }
  }

  /** Last entry wins: when the `j`-th normalized entry stores `val` at `k`
      as given (a string or a boolean; in an object entry any value that is
      not an object) and no later entry owns `k`, the merged result holds
      exactly `val` at `k`. */
  lemma LastWriteWins(norm: Value -> Value, q: seq<Value>, j: nat, k: string)
    requires j < |q|
    requires Fold(norm, q).Success?
    requires k in OwnEntries(norm(q[j]))
    requires var val := OwnEntries(norm(q[j]))[k];
      val.Str? || val.Bool? || (IsObject(norm(q[j])) && !IsObject(val))
    requires forall i | j < i < |q| :: k !in OwnEntries(norm(q[i]))
    ensures k in Fold(norm, q).value
    ensures Fold(norm, q).value[k] == OwnEntries(norm(q[j]))[k]
  {
    FoldPrefixSucceeds(norm, q, j);
    var before := Fold(norm, q[..j]).value;
    FoldNext(norm, q, j, before);
    FoldUntouched(norm, q, j + 1, k);
    StepStores(before, norm(q[j]), k);
    FoldKeepsKeys(norm, q, j + 1, k);
  }

  /** One step stores a string, a boolean, or (from an object entry) any
      non-object value exactly as the entry gives it. */
  lemma StepStores(res: map<string, Value>, obj: Value, k: string)
    requires Step(res, obj).Success?
    requires k in OwnEntries(obj)
    requires var val := OwnEntries(obj)[k];
      val.Str? || val.Bool? || (IsObject(obj) && !IsObject(val))
    ensures k in Step(res, obj).value
    ensures Step(res, obj).value[k] == OwnEntries(obj)[k]
  {
    StepAt(res, obj, k);
  }

  /** `obj` owns no `hasOwnProperty` and no non-empty array, so neither the
      own-property test nor the array rule throws for it. */
  predicate SafeEntry(obj: Value) {
    && !Shadows(obj)
    && forall k | k in OwnEntries(obj) :: !(OwnEntries(obj)[k].Arr? && |OwnEntries(obj)[k].elems| > 0)
  }

  /** The fold can only fail through the own-property test or the array
      rule: when every normalized entry is safe, merging succeeds. */
  lemma {:induction false} FoldSucceedsWhenSafe(norm: Value -> Value, q: seq<Value>)
    requires forall j | 0 <= j < |q| :: SafeEntry(norm(q[j]))
    ensures Fold(norm, q).Success?
    decreases |q|
  {
    if q != [] {
      var p := q[..|q| - 1];
      FoldSucceedsWhenSafe(norm, p);
      StepFailsIff(Fold(norm, p).value, norm(q[|q| - 1]));
    }
  }

  /** An entry anywhere in the queue that owns `hasOwnProperty` makes the
      whole merge throw. */
  lemma ShadowedEntryFails(norm: Value -> Value, q: seq<Value>, j: nat)
    requires j < |q|
    requires Shadows(norm(q[j]))
    ensures Fold(norm, q).Failure?
  {
    if Fold(norm, q[..j]).Failure? {
      FoldFailureSticks(norm, q, j);
    } else {
      FoldNext(norm, q, j, Fold(norm, q[..j]).value);
      StepFailsIff(Fold(norm, q[..j]).value, norm(q[j]));
      FoldFailureSticks(norm, q, j + 1);
    }
  }

  /** Only own properties of the normalized entries reach the result. */
  lemma {:induction false} FoldKeysOwned(norm: Value -> Value, q: seq<Value>, k: string)
    requires Fold(norm, q).Success?
    requires k in Fold(norm, q).value
    ensures exists j | 0 <= j < |q| :: k in OwnEntries(norm(q[j]))
    decreases |q|
  {
    var p := q[..|q| - 1];
    var last := norm(q[|q| - 1]);
    FoldPrefixSucceeds(norm, q, |q| - 1);
    if k !in OwnEntries(last) {
      StepAt(Fold(norm, p).value, last, k);
      FoldKeysOwned(norm, p, k);
      var j :| 0 <= j < |p| && k in OwnEntries(norm(p[j]));
      assert q[j] == p[j];
    }
  }
}

=== FILE: scenarios.dfy ===
/** The behaviours that test.js checks, and the merge laws one would expect
    of the store, stated on the model. */
module Scenarios {
  import opened JsValues
  import opened Utils
  import opened MergeFold
  import opened MergeSettings

  /** A stand-in for the map-schema normalizer that test.js:83-97 builds:
      `plugins`, when present, becomes an array (`[]` when falsy, itself
      when an array, a one-element array otherwise) and `license` defaults to
      `'MIT'`. Only the two fields the tests use are modelled. */
  function SchemaDefaults(config: Value): Value {
    if !config.Obj? then config
    else
      var f := config.fields;
      var f' := if "plugins" in f then f["plugins" := Plugins(f["plugins"])] else f;
      Obj(if "license" in f' then f' else f'["license" := Str("MIT")])
  }

  function Plugins(v: Value): Value {
    if !Truthy(v) then Arr([]) else if v.Arr? then v else Arr([v])
  }

  /** test.js:65-71: `addConfigs({a: 'b'}, {c: 'd'}, {e: 'f'})` queues the
      three objects in argument order. test.js:52-57 gives this store the
      normalizer of an empty map-schema; the queue does not depend on the
      normalizer, so the store here has none. */
  method AddThreeConfigs() returns (q: seq<Value>)
    ensures |q| == 3
    ensures q[0] == Obj(map["a" := Str("b")])
    ensures q[1] == Obj(map["c" := Str("d")])
    ensures q[2] == Obj(map["e" := Str("f")])
  {
    var s := new Settings(None);
    var xs := [Obj(map["a" := Str("b")]), Obj(map["c" := Str("d")]), Obj(map["e" := Str("f")])];
    var _ := s.AddConfigs(xs);
    FlattenFlat(xs);
    AddEachQueue(Store([], map[]), xs);
    q := s.configs;
  }

  /** The queue `{a: b}, {c: d}, {e: f}, {a: z}` of test.js:73-78, over
      any keys and strings. */
  function FourConfigs(a: string, c: string, e: string, b: string, d: string, f: string, z: string): seq<Value> {
    [Obj(map[a := Str(b)]), Obj(map[c := Str(d)]), Obj(map[e := Str(f)]), Obj(map[a := Str(z)])]
  }

  /** Only `a`, `c` and `e` can appear in the result of folding the four
      configs. */
  lemma FourConfigsKeys(norm: Value -> Value, a: string, c: string, e: string,
                        b: string, d: string, f: string, z: string, k: string)
    requires forall x :: norm(x) == x
    requires Fold(norm, FourConfigs(a, c, e, b, d, f, z)).Success?
    requires k in Fold(norm, FourConfigs(a, c, e, b, d, f, z)).value
    ensures k == a || k == c || k == e
  {
    var xs := FourConfigs(a, c, e, b, d, f, z);
    FoldKeysOwned(norm, xs, k);
    var j :| 0 <= j < |xs| && k in OwnEntries(norm(xs[j]));
    if j == 0 {
      assert k in xs[0].fields;
    } else if j == 1 {
      assert k in xs[1].fields;
    } else if j == 2 {
      assert k in xs[2].fields;
    } else {
      assert k in xs[3].fields;
    }
  }

  /** No config of the four holds an array or an own `hasOwnProperty`, so
      folding them succeeds. */
  lemma FourConfigsSucceed(norm: Value -> Value, a: string, c: string, e: string,
                           b: string, d: string, f: string, z: string)
    requires forall x :: norm(x) == x
    requires a != "hasOwnProperty" && c != "hasOwnProperty" && e != "hasOwnProperty"
    ensures Fold(norm, FourConfigs(a, c, e, b, d, f, z)).Success?
  {
    var xs := FourConfigs(a, c, e, b, d, f, z);
    forall j | 0 <= j < |xs| ensures SafeEntry(norm(xs[j])) {
    }
    FoldSucceedsWhenSafe(norm, xs);
  }

  /** `a`, written last by the fourth config, holds `z`. */
  lemma FourConfigsA(norm: Value -> Value, a: string, c: string, e: string,
                     b: string, d: string, f: string, z: string)
    requires forall x :: norm(x) == x
    requires a != "hasOwnProperty" && c != "hasOwnProperty" && e != "hasOwnProperty"
    ensures var r := Fold(norm, FourConfigs(a, c, e, b, d, f, z));
      r.Success? && a in r.value && r.value[a] == Str(z)
  {
    var xs := FourConfigs(a, c, e, b, d, f, z);
    FourConfigsSucceed(norm, a, c, e, b, d, f, z);
    assert norm(xs[3]) == Obj(map[a := Str(z)]);
    LastWriteWins(norm, xs, 3, a);
  }

  /** `c`, written only by the second config, holds `d`. */
  lemma FourConfigsC(norm: Value -> Value, a: string, c: string, e: string,
                     b: string, d: string, f: string, z: string)
    requires forall x :: norm(x) == x
    requires a != "hasOwnProperty" && c != "hasOwnProperty" && e != "hasOwnProperty"
    requires a != c && c != e
    ensures var r := Fold(norm, FourConfigs(a, c, e, b, d, f, z));
      r.Success? && c in r.value && r.value[c] == Str(d)
  {
    var xs := FourConfigs(a, c, e, b, d, f, z);
    FourConfigsSucceed(norm, a, c, e, b, d, f, z);
    assert norm(xs[1]) == Obj(map[c := Str(d)]);
    assert norm(xs[2]) == Obj(map[e := Str(f)]) && norm(xs[3]) == Obj(map[a := Str(z)]);
    LastWriteWins(norm, xs, 1, c);
  }

  /** `e`, written only by the third config, holds `f`. */
  lemma FourConfigsE(norm: Value -> Value, a: string, c: string, e: string,
                     b: string, d: string, f: string, z: string)
    requires forall x :: norm(x) == x
    requires a != "hasOwnProperty" && c != "hasOwnProperty" && e != "hasOwnProperty"
    requires a != e
    ensures var r := Fold(norm, FourConfigs(a, c, e, b, d, f, z));
      r.Success? && e in r.value && r.value[e] == Str(f)
  {
    var xs := FourConfigs(a, c, e, b, d, f, z);
    FourConfigsSucceed(norm, a, c, e, b, d, f, z);
    assert norm(xs[2]) == Obj(map[e := Str(f)]) && norm(xs[3]) == Obj(map[a := Str(z)]);
    LastWriteWins(norm, xs, 2, e);
  }

  /** The last string at a key wins, whatever the keys and strings:
      folding `{a: b}, {c: d}, {e: f}, {a: z}` for distinct keys `a`, `c`,
      `e` gives `{a: z, c: d, e: f}` (test.js:73-78). */
  lemma FourConfigsFold(norm: Value -> Value, a: string, c: string, e: string,
                        b: string, d: string, f: string, z: string)
    requires forall x :: norm(x) == x
    requires a != "hasOwnProperty" && c != "hasOwnProperty" && e != "hasOwnProperty"
    requires a != c && a != e && c != e
    ensures Fold(norm, FourConfigs(a, c, e, b, d, f, z)) == Success(map[a := Str(z), c := Str(d), e := Str(f)])
  {
    FourConfigsA(norm, a, c, e, b, d, f, z);
    FourConfigsC(norm, a, c, e, b, d, f, z);
    FourConfigsE(norm, a, c, e, b, d, f, z);
    FourConfigsOnly(norm, a, c, e, b, d, f, z);
    ThreeKeys(Fold(norm, FourConfigs(a, c, e, b, d, f, z)).value, a, c, e);
  }

  /** A map whose keys are among `a`, `c` and `e` and that holds all three
      is the map of those three entries. */
  lemma ThreeKeys(m: map<string, Value>, a: string, c: string, e: string)
    requires m.Keys <= {a, c, e} && a in m && c in m && e in m
    ensures m == map[a := m[a], c := m[c], e := m[e]]
  {
  }

  /** The merged result holds no key besides `a`, `c` and `e`. */
  lemma FourConfigsOnly(norm: Value -> Value, a: string, c: string, e: string,
                        b: string, d: string, f: string, z: string)
    requires forall x :: norm(x) == x
    requires a != "hasOwnProperty" && c != "hasOwnProperty" && e != "hasOwnProperty"
    ensures var r := Fold(norm, FourConfigs(a, c, e, b, d, f, z));
      r.Success? && r.value.Keys <= {a, c, e}
  {
    FourConfigsSucceed(norm, a, c, e, b, d, f, z);
    var res := Fold(norm, FourConfigs(a, c, e, b, d, f, z)).value;
    forall k | k in res ensures k in {a, c, e} {
      FourConfigsKeys(norm, a, c, e, b, d, f, z, k);
    }
  }

  /** test.js:73-78: after `addConfigs({a: 'b'}, {c: 'd'}, {e: 'f'},
      {a: 'z'})`, `merge()` gives `{a: 'z', c: 'd', e: 'f'}`. test.js:52-57
      normalizes with an empty map-schema; since the test expects exactly
      the configs' own keys and values (test.js:77), that normalizer is
      taken to leave these configs unchanged, and the store here has none. */
  method MergeMultipleConfigs() returns (r: Result<Value>)
    ensures r == Success(Obj(map["a" := Str("z"), "c" := Str("d"), "e" := Str("f")]))
  {
    var s := new Settings(None);
    var _ := s.AddConfigs(FourConfigs("a", "c", "e", "b", "d", "f", "z"));
    r := s.Merge(WithConfigs([]));
    FourConfigsMerged();
  }

  /** A new store's `addConfigs` queues the four configs as given. */
  lemma FourConfigsQueued(a: string, c: string, e: string, b: string, d: string, f: string, z: string)
    ensures AddConfigsEffect(Store([], map[]), FourConfigs(a, c, e, b, d, f, z)).configs
      == FourConfigs(a, c, e, b, d, f, z)
  {
    var xs := FourConfigs(a, c, e, b, d, f, z);
    AddConfigsPlain(Store([], map[]), xs);
    assert [] + xs == xs;
  }

  /** The store-level statement behind MergeMultipleConfigs, with the
      identity normalizer in place of the empty map-schema of test.js:52-57. */
  lemma FourConfigsMerged()
    ensures var xs := FourConfigs("a", "c", "e", "b", "d", "f", "z");
      Merged(NormalizerFor(WithConfigs([]), None), AddConfigsEffect(Store([], map[]), xs).configs)
        == Success(Obj(map["a" := Str("z"), "c" := Str("d"), "e" := Str("f")]))
  {
    FourConfigsQueued("a", "c", "e", "b", "d", "f", "z");
    FourConfigsFold(NormalizerFor(WithConfigs([]), None), "a", "c", "e", "b", "d", "f", "z");
  }

  /** test.js:100-105: a normalizer that adds a default makes the default
      appear in the merged result although no config mentions it. */
  method NormalizerAddsDefault() returns (r: Result<Value>)
    ensures r.Success? && r.value.Obj?
    ensures "license" in r.value.fields && r.value.fields["license"] == Str("MIT")
  {
    var s := new Settings(Some(SchemaDefaults));
    var _ := s.AddConfig([Obj(map["a" := Str("b")])]);
    r := s.Merge(WithConfigs([]));
    LicenseFold(NormalizerFor(WithConfigs([]), Some(SchemaDefaults)));
  }

  /** With the schema normalizer, `{a: 'b'}` folds to a result whose
      `license` is `'MIT'`. */
  lemma LicenseFold(norm: Value -> Value)
    requires forall v :: norm(v) == SchemaDefaults(v)
    ensures var r := Fold(norm, [Obj(map["a" := Str("b")])]);
      r.Success? && "license" in r.value && r.value["license"] == Str("MIT")
  {
    var q := [Obj(map["a" := Str("b")])];
    var entry := Obj(map["a" := Str("b"), "license" := Str("MIT")]);
    assert norm(q[0]) == entry by {
      assert SchemaDefaults(q[0]) == entry;
    }
    assert SafeEntry(entry);
    FoldSucceedsWhenSafe(norm, q);
    LastWriteWins(norm, q, 0, "license");
  }

  /** With the schema normalizer, `{plugins: 'abc'}` folds to a result
      whose `plugins` is `['abc']`. */
  lemma PluginsFold(norm: Value -> Value)
    requires forall v :: norm(v) == SchemaDefaults(v)
    ensures var r := Fold(norm, [Obj(map["plugins" := Str("abc")])]);
      r.Success? && "plugins" in r.value && r.value["plugins"] == Arr([Str("abc")])
  {
    var config := Obj(map["plugins" := Str("abc")]);
    var entry := Obj(map["plugins" := Arr([Str("abc")]), "license" := Str("MIT")]);
    assert norm(config) == entry by {
      assert SchemaDefaults(config) == entry;
    }
    assert Fold(norm, [config]) == Step(map[], entry) by {
      FoldTwo(norm, config, config);
    }
    assert Step(map[], entry).Success? by {
      StepFailsIff(map[], entry);
    }
    StepAt(map[], entry, "plugins");
  }

  /** test.js:107-111: the normalized `plugins` array reaches the result. */
  method NormalizerShapesPlugins() returns (r: Result<Value>)
    ensures r.Success? && r.value.Obj?
    ensures "plugins" in r.value.fields && r.value.fields["plugins"] == Arr([Str("abc")])
  {
    var s := new Settings(Some(SchemaDefaults));
    var _ := s.AddConfig([Obj(map["plugins" := Str("abc")])]);
    r := s.Merge(WithConfigs([]));
    PluginsFold(NormalizerFor(WithConfigs([]), Some(SchemaDefaults)));
  }

  /** Two calls of `merge()` with nothing added between them return equal
      results and leave the store as it was. */
  method MergeTwice(s: Settings) returns (r1: Result<Value>, r2: Result<Value>)
    modifies s
    ensures r1 == r2
    ensures s.State() == old(s.State())
  {
    r1 := s.Merge(WithConfigs([]));
    r2 := s.Merge(WithConfigs([]));
  }

  /** Folding two entries is a step from the empty accumulator, then a
      second step. */
  lemma FoldTwo(norm: Value -> Value, x: Value, y: Value)
    ensures Fold(norm, [x]) == Step(map[], norm(x))
    ensures Fold(norm, [x, y]) == Then(Step(map[], norm(x)), norm, y)
  {
    assert [x][..0] == [] && [x, y][..1] == [x];
  }

  /** Merging `{a: {..h}}` onto `{a: {..g}}` merges `h` into `g`. */
  lemma MergeAtOneKey(a: string, g: map<string, Value>, h: map<string, Value>)
    ensures MixinDeep(map[a := Obj(g)], Obj(map[a := Obj(h)])) == map[a := Obj(MixinDeep(g, Obj(h)))]
  {
    MixinDeepAt(map[a := Obj(g)], map[a := Obj(h)], a);
  }

  /** Merging `{a: v}` onto `{a: u}`, where `v` is not an object, gives
      `{a: v}`. */
  lemma MergeOverwrites(a: string, u: Value, v: Value)
    requires !IsObject(v)
    ensures MixinDeep(map[a := u], Obj(map[a := v])) == map[a := v]
  {
    MixinDeepAt(map[a := u], map[a := v], a);
  }

  /** Merging `{y: vy}` onto `{x: vx}` for distinct keys gives both. */
  lemma MergeDisjoint(x: string, y: string, vx: Value, vy: Value)
    requires x != y
    ensures MixinDeep(map[x := vx], Obj(map[y := vy])) == map[x := vx, y := vy]
  {
    MixinDeepAt(map[x := vx], map[y := vy], x);
    MixinDeepAt(map[x := vx], map[y := vy], y);
  }

  /** Objects merge deeply: merging `{a: {x: vx}}` then `{a: {y: vy}}`
      gives `{a: {x: vx, y: vy}}`. */
  lemma ObjectsMergeDeeply(norm: Value -> Value, a: string, x: string, y: string, vx: Value, vy: Value)
    requires forall v :: norm(v) == v
    requires a != "hasOwnProperty"
    requires x != y
    ensures Fold(norm, [Obj(map[a := Obj(map[x := vx])]), Obj(map[a := Obj(map[y := vy])])])
      == Success(map[a := Obj(map[x := vx, y := vy])])
  {
    var first := Obj(map[a := Obj(map[x := vx])]);
    var second := Obj(map[a := Obj(map[y := vy])]);
    FoldTwo(norm, first, second);
    var acc := first.fields;
    StepFromEmpty(acc);
    assert Step(acc, second).Success? by {
      StepFailsIff(acc, second);
    }
    StepOfObjectIsDeepMerge(acc, second.fields);
    MergeAtOneKey(a, map[x := vx], map[y := vy]);
    MergeDisjoint(x, y, vx, vy);
  }

  /** Arrays do not union: a non-empty array meeting a non-empty array at
      the same key reaches the unregistered `utils.union` and fails. */
  lemma ArraysAtSameKeyFail(norm: Value -> Value, a: string, xs: seq<Value>, ys: seq<Value>)
    requires forall v :: norm(v) == v
    requires a != "hasOwnProperty"
    requires |xs| > 0 && |ys| > 0
    ensures Fold(norm, [Obj(map[a := Arr(xs)]), Obj(map[a := Arr(ys)])]) == Failure(UnionIsNotAFunction)
  {
    var first := Obj(map[a := Arr(xs)]);
    var second := Obj(map[a := Arr(ys)]);
    FoldTwo(norm, first, second);
    StepFailsIff(map[], first);
    var acc := Step(map[], first).value;
    assert Prop(acc, a).Arr? by {
      StepAt(map[], first, a);
    }
    StepFailsIff(acc, second);
  }

  /** An empty array never triggers the array rule, yet the blanket merge
      still stores it: merging `{a: xs}` then `{a: []}` gives `{a: []}`. */
  lemma EmptyArrayOverwrites(norm: Value -> Value, a: string, xs: seq<Value>)
    requires forall v :: norm(v) == v
    requires a != "hasOwnProperty"
    ensures Fold(norm, [Obj(map[a := Arr(xs)]), Obj(map[a := Arr([])])]) == Success(map[a := Arr([])])
  {
    var first := Obj(map[a := Arr(xs)]);
    var second := Obj(map[a := Arr([])]);
    FoldTwo(norm, first, second);
    StepFromEmpty(first.fields);
    assert Step(first.fields, second).Success? by {
      StepFailsIff(first.fields, second);
    }
    StepOfObjectIsDeepMerge(first.fields, second.fields);
    MergeOverwrites(a, Arr(xs), Arr([]));
    assert Then(Success(first.fields), norm, second) == Step(first.fields, second);
  }
}

=== FILE: settings.dfy ===
/** The `Settings` store of index.js: a queue of pending configs, a key
    cache, an optional normalizer, and the `merge` that folds the queue.

    JavaScript dispatches `set`, `addConfig` and `addConfigs` on the type and
    number of their arguments (`arguments`, `apply`); each method here takes
    its argument list as a sequence. A missing argument reads as
    `undefined`. */
module MergeSettings {
  import opened JsValues
  import opened Utils
  import opened MergeFold

  /** What a store holds that its methods change: the queue and the cache. */
  datatype Store = Store(configs: seq<Value>, cache: map<string, Value>)

  /** `normalize(config)` of index.js:29-34: the user's `options.normalize`
      when it is a function (`Some`), the identity otherwise (`None`). */
  function Normalized(normalizer: Option<Value -> Value>, config: Value): Value {
    match normalizer
    case Some(f) => f(config)
    case None => config
  }

  /** `arguments[i]`, `undefined` when fewer were passed. */
  function Arg(args: seq<Value>, i: nat): Value {
    if i < |args| then args[i] else Undefined
  }

  /** The first argument is a string: `set` stores under it as a key. */
  predicate HasStringKey(args: seq<Value>) {
    |args| > 0 && args[0].Str?
  }

  /** An array first argument, or more than one argument: `addConfig`
      hands the whole list to `addConfigs` (index.js:112). */
  predicate SpreadsArgs(args: seq<Value>) {
    (|args| > 0 && args[0].Arr?) || |args| > 1
  }

  /** `set(key, config)` with a string key (index.js:56-57). */
  function Keyed(st: Store, key: string, config: Value): Store {
    Store(st.configs + [config], st.cache[key := config])
  }

  /** `this.configs.push(config)` (index.js:116). */
  function Pushed(st: Store, config: Value): Store {
    Store(st.configs + [config], st.cache)
  }

  /** `addConfig(x)` for one argument that is not an array, as `addConfigs`
      calls it for each flattened element: a string becomes a `set` with an
      `undefined` config, anything else is pushed. */
  function AddOne(st: Store, x: Value): Store {
    if x.Str? then Keyed(st, x.s, Undefined) else Pushed(st, x)
  }

  /** `AddOne` for each of `xs`, in order. */
  function AddEach(st: Store, xs: seq<Value>): Store
    decreases |xs|
  {
    if xs == [] then st else AddOne(AddEach(st, xs[..|xs| - 1]), xs[|xs| - 1])
  }

  /** The store after `addConfigs(...args)` (index.js:133-141). */
  function AddConfigsEffect(st: Store, args: seq<Value>): Store {
    AddEach(st, Flatten(args))
  }

  /** The store after `set(...args)` or `addConfig(...args)`: both come down
      to the same three cases, as `set` with a non-string key forwards to
      `addConfig` and `addConfig` with a string forwards to `set`. */
  function AddEffect(st: Store, args: seq<Value>): Store {
    if HasStringKey(args) then Keyed(st, args[0].s, Arg(args, 1))
    else if SpreadsArgs(args) then AddConfigsEffect(st, args)
    else Pushed(st, Arg(args, 0))
  }

  /** The queue entry that `addConfig(x)` makes for a non-array `x`. */
  function EntryOf(x: Value): Value {
    if x.Str? then Undefined else x
  }

  /** The entries that adding each of `xs` appends. */
  function Entries(xs: seq<Value>): seq<Value> {
    seq(|xs|, i requires 0 <= i < |xs| => EntryOf(xs[i]))
  }

  /** Adding a list appends exactly one entry per element, in order. */
  lemma {:induction false} AddEachQueue(st: Store, xs: seq<Value>)
    ensures AddEach(st, xs).configs == st.configs + Entries(xs)
    decreases |xs|
  {
    if xs != [] {
      var init := xs[..|xs| - 1];
      AddEachQueue(st, init);
      assert Entries(xs) == Entries(init) + [EntryOf(xs[|xs| - 1])];
    }
  }

  /** Without strings among them, the values are queued as they are. */
  lemma EntriesOfNonStrings(xs: seq<Value>)
    requires forall i | 0 <= i < |xs| :: !xs[i].Str?
    ensures Entries(xs) == xs
  {
  }

  /** Adding `xs + ys` is adding `xs` and then `ys`. */
  lemma {:induction false} AddEachAppend(st: Store, xs: seq<Value>, ys: seq<Value>)
    ensures AddEach(st, xs + ys) == AddEach(AddEach(st, xs), ys)
    decreases |ys|
  {
    if ys == [] {
      assert xs + ys == xs;
    } else {
      var ys' := ys[..|ys| - 1];
      assert (xs + ys)[..|xs + ys| - 1] == xs + ys';
      AddEachAppend(st, xs, ys');
    }
  }

  /** `addConfigs` appends one entry per element of the flattened argument
      list, in argument order; earlier entries are untouched. */
  lemma AddConfigsQueue(st: Store, args: seq<Value>)
    ensures var q := AddConfigsEffect(st, args).configs;
      && |q| == |st.configs| + |Flatten(args)|
      && q[..|st.configs|] == st.configs
      && forall i | 0 <= i < |Flatten(args)| :: q[|st.configs| + i] == EntryOf(Flatten(args)[i])
  {
    AddEachQueue(st, Flatten(args));
  }

  /** Configs that are neither arrays nor strings are queued by
      `addConfigs` exactly as given, in argument order. */
  lemma AddConfigsPlain(st: Store, xs: seq<Value>)
    requires forall i | 0 <= i < |xs| :: !xs[i].Arr? && !xs[i].Str?
    ensures AddConfigsEffect(st, xs).configs == st.configs + xs
  {
    FlattenFlat(xs);
    AddEachQueue(st, xs);
    EntriesOfNonStrings(xs);
  }

  /** How the arguments are nested does not matter to `addConfigs`:
      `addConfigs(a, b, c)` and `addConfigs([a, [b, c]])` end in the same
      store. */
  lemma AddConfigsNesting(st: Store, a: Value, b: Value, c: Value)
    ensures AddConfigsEffect(st, [a, b, c]) == AddConfigsEffect(st, [Arr([a, Arr([b, c])])])
  {
    calc {
      Flatten([Arr([a, Arr([b, c])])]);
      Flatten([a, Arr([b, c])]) + Flatten([]);
      { assert [a, Arr([b, c])] == [a] + [Arr([b, c])]; FlattenAppend([a], [Arr([b, c])]); }
      Flatten([a]) + Flatten([Arr([b, c])]);
      Flatten([a]) + Flatten([b, c]);
      { assert [b, c] == [b] + [c]; FlattenAppend([b], [c]); }
      Flatten([a]) + Flatten([b]) + Flatten([c]);
      { assert [a, b, c] == [a] + [b] + [c]; FlattenAppend([a] + [b], [c]); FlattenAppend([a], [b]); }
      Flatten([a, b, c]);
    }
  }

  /** Every way of adding only appends: the old queue is a prefix of the
      new one, and at least one entry is added. */
  lemma AddEffectAppends(st: Store, args: seq<Value>)
    ensures var q := AddEffect(st, args).configs;
      |q| > |st.configs| || (SpreadsArgs(args) && Flatten(args) == [])
    ensures st.configs <= AddEffect(st, args).configs
  {
    if !HasStringKey(args) && SpreadsArgs(args) {
      AddConfigsQueue(st, args);
    }
  }

  /** What `merge` does with its first argument (index.js:177-185). */
  datatype MergeCall =
    | WithNormalizer(fn: Value -> Value)  // merge(fn): fn replaces normalize
    | WithConfigs(args: seq<Value>)      // merge(...args), possibly none

  /** `if (config) this.addConfig.apply(this, arguments)`. */
  predicate AddsInline(call: MergeCall) {
    call.WithConfigs? && |call.args| > 0 && Truthy(call.args[0])
  }

  /** The function `fn` that merge applies to each entry. */
  function NormalizerFor(call: MergeCall, normalizer: Option<Value -> Value>): Value -> Value {
    match call
    case WithNormalizer(fn) => fn
    case WithConfigs(_) => x => Normalized(normalizer, x)
  }

  /** The value `merge` returns, or the error it throws. */
  function Merged(norm: Value -> Value, q: seq<Value>): Result<Value> {
    match Fold(norm, q)
    case Success(res) => Success(Obj(res))
    case Failure(e) => Failure(e)
  }

  class Settings {
    /** `options.normalize`, when it is a function. */
    const normalizer: Option<Value -> Value>
    /** The queue of pending configs, in the order they were added. */
    var configs: seq<Value>
    /** The key cache written by `set`. */
    var cache: map<string, Value>

    /** `new Settings(options)` (index.js:15-19). */
    constructor(normalizer: Option<Value -> Value>)
      ensures this.normalizer == normalizer
      ensures configs == [] && cache == map[]
    {
      this.normalizer := normalizer;
      configs := [];
      cache := map[];
    }

    function State(): Store
      reads this
    {
      Store(configs, cache)
    }

    /** index.js:29-34. */
    function Normalize(config: Value): (r: Value)
      ensures normalizer.None? ==> r == config
      ensures normalizer.Some? ==> r == normalizer.value(config)
    {
      Normalized(normalizer, config)
    }

    /** index.js:87-89: a key never set reads as `undefined`, not an error. */
    function GetRaw(key: string): (r: Value)
      reads this
      ensures key !in cache ==> r == Undefined
      ensures key in cache ==> r == cache[key]
    {
      Prop(cache, key)
    }

    /** index.js:72-74: the cached value, normalized. */
    function Get(key: string): (r: Value)
      reads this
      ensures normalizer.None? ==> r == GetRaw(key)
      ensures normalizer.Some? ==> r == normalizer.value(GetRaw(key))
    {
      Normalize(GetRaw(key))
    }

    /** index.js:52-59. */
    method Set(args: seq<Value>) returns (self: Settings)
      modifies this
      decreases if HasStringKey(args) then 0 else 4
      ensures self == this
      ensures State() == AddEffect(old(State()), args)
      ensures HasStringKey(args) ==>
        && configs == old(configs) + [Arg(args, 1)]
        && cache == old(cache)[args[0].s := Arg(args, 1)]
        && GetRaw(args[0].s) == Arg(args, 1)
    {
      if !HasStringKey(args) {
        self := AddConfig(args);
        return;
      }
      configs := configs + [Arg(args, 1)];
      cache := cache[args[0].s := Arg(args, 1)];
      return this;
    }

    /** index.js:107-118. */
    method AddConfig(args: seq<Value>) returns (self: Settings)
      modifies this
      decreases if HasStringKey(args) then 1 else if SpreadsArgs(args) then 3 else 0
      ensures self == this
      ensures State() == AddEffect(old(State()), args)
      ensures |args| == 1 && !args[0].Str? && !args[0].Arr? ==>
        configs == old(configs) + [args[0]] && cache == old(cache)
    {
      if HasStringKey(args) {
        self := Set(args);
        return;
      }
      if SpreadsArgs(args) {
        self := AddConfigs(args);
        return;
      }
      configs := configs + [Arg(args, 0)];
      return this;
    }

    /** index.js:133-141. */
    method AddConfigs(args: seq<Value>) returns (self: Settings)
      modifies this
      decreases 2
      ensures self == this
      ensures State() == AddConfigsEffect(old(State()), args)
    {
      var flat := Flatten(args);
      var i := 0;
      while i < |flat|
        invariant 0 <= i <= |flat|
        invariant State() == AddEach(old(State()), flat[..i])
      {
        var _ := AddConfig([flat[i]]);
        assert flat[..i + 1][..i] == flat[..i];
        i := i + 1;
      }
      assert flat[..i] == flat;
      return this;
    }

    /** index.js:177-219. */
    method Merge(call: MergeCall) returns (r: Result<Value>)
      modifies this
      ensures AddsInline(call) ==> State() == AddEffect(old(State()), call.args)
      ensures !AddsInline(call) ==> State() == old(State())
      ensures r == Merged(NormalizerFor(call, normalizer), configs)
      ensures !AddsInline(call) && old(configs) == [] ==> r == Success(Obj(map[]))
    {
      var fn := NormalizerFor(call, normalizer);
      if AddsInline(call) {
        var _ := AddConfig(call.args);
      }
      ghost var queued := State();
      var len := |configs|;
      var i := 0;
      var res: map<string, Value> := map[];
      while i < len
        invariant State() == queued
        invariant len == |configs|
        invariant 0 <= i <= len
        invariant Fold(fn, configs[..i]) == Success(res)
      {
        var obj := fn(configs[i]);
        var pass := ApplyKeyRules(res, OwnEntries(obj), Shadows(obj));
        FoldNext(fn, configs, i, res);
        if pass.Failure? {
          FoldFailureSticks(fn, configs, i + 1);
          return Failure(pass.error);
        }
        res := MixinDeep(pass.value, obj);
        i := i + 1;
      }
      assert configs[..i] == configs;
      return Success(Obj(res));
    }
  }
}

=== FILE: utils.dfy ===
/** The helpers that index.js reaches through `utils` (utils.js:15-19).
    They are third-party packages whose code is not part of this model;
    each is defined here by the behaviour this model assumes of it:

    - `isObject` (package isobject): a non-null value that is an object
      and not an array;
    - `merge` (package mixin-deep): copy every own property of each source
      object onto the target, recursing where both sides hold an object and
      overwriting otherwise; a source that is not an object is skipped;
    - `flatten` (package arr-flatten): flatten nested arrays completely.

    utils.js registers no `union`; see MergeFold for what calling it does. */
module Utils {
  import opened JsValues

  /** `utils.isObject(v)`. */
  predicate IsObject(v: Value) {
    v.Obj?
  }

  /** `utils.merge(target, src)`, for one source. The source package updates
      `target` in place; here the updated object is returned. */
  function MixinDeep(target: map<string, Value>, src: Value): map<string, Value>
    decreases src
  {
    if !IsObject(src) then target
    else
      map k | k in target.Keys + src.fields.Keys ::
        if k in src.fields then
          if k in target && IsObject(target[k]) && IsObject(src.fields[k])
          then Obj(MixinDeep(target[k].fields, src.fields[k]))
          else src.fields[k]
        else target[k]
  }

  /** Where the source holds a property, the merged object holds the source's
      value, merged with the target's when both are objects; every other
      property of the target is kept. */
  lemma MixinDeepAt(target: map<string, Value>, f: map<string, Value>, k: string)
    ensures var r := MixinDeep(target, Obj(f));
      && r.Keys == target.Keys + f.Keys
      && (k in f && IsObject(f[k]) && k in target && IsObject(target[k]) ==>
            r[k] == Obj(MixinDeep(target[k].fields, f[k])))
      && (k in f && !(IsObject(f[k]) && k in target && IsObject(target[k])) ==> r[k] == f[k])
      && (k !in f ==> Prop(r, k) == Prop(target, k))
  {
  }

  /** `merge({}, src)` is a copy of `src`. */
  lemma MixinDeepIntoEmpty(f: map<string, Value>)
    ensures MixinDeep(map[], Obj(f)) == f
  {
    var r := MixinDeep(map[], Obj(f));
    assert r.Keys == f.Keys;
    forall k | k in f ensures r[k] == f[k] {
    }
  }

  /** Merging an object onto itself changes nothing. */
  lemma {:induction false} MixinDeepSelf(v: Value)
    requires IsObject(v)
    ensures MixinDeep(v.fields, v) == v.fields
    decreases v
  {
    var f := v.fields;
    var r := MixinDeep(f, v);
    forall k | k in f ensures r[k] == f[k] {
      if IsObject(f[k]) {
        MixinDeepSelf(f[k]);
      }
    }
    assert r.Keys == f.Keys;
  }

  /** Merging the same source twice is the same as merging it once. */
  lemma {:induction false} MixinDeepIdempotent(target: map<string, Value>, src: Value)
    ensures MixinDeep(MixinDeep(target, src), src) == MixinDeep(target, src)
    decreases src
  {
    if IsObject(src) {
      var f := src.fields;
      var m := MixinDeep(target, src);
      var r := MixinDeep(m, src);
      forall k | k in m ensures k in r && r[k] == m[k] {
        if k in f && IsObject(f[k]) {
          if k in target && IsObject(target[k]) {
            MixinDeepIdempotent(target[k].fields, f[k]);
          } else {
            MixinDeepSelf(f[k]);
          }
        }
      }
      assert r.Keys == m.Keys;
    }
  }

  /** `utils.flatten(xs)`: the non-array values of `xs`, nested arrays
      opened up at every depth, in order. */
  function Flatten(xs: seq<Value>): (r: seq<Value>)
    ensures forall i | 0 <= i < |r| :: !r[i].Arr?
  {
    if xs == [] then []
    else (if xs[0].Arr? then Flatten(xs[0].elems) else [xs[0]]) + Flatten(xs[1..])
  }

  /** Flattening distributes over concatenation. */
  lemma {:induction false} FlattenAppend(xs: seq<Value>, ys: seq<Value>)
    ensures Flatten(xs + ys) == Flatten(xs) + Flatten(ys)
  {
    if xs == [] {
      assert xs + ys == ys;
    } else {
      var head := if xs[0].Arr? then Flatten(xs[0].elems) else [xs[0]];
      assert (xs + ys)[0] == xs[0];
      assert (xs + ys)[1..] == xs[1..] + ys;
      FlattenAppend(xs[1..], ys);
      calc {
        Flatten(xs + ys);
        head + Flatten(xs[1..] + ys);
        head + (Flatten(xs[1..]) + Flatten(ys));
        (head + Flatten(xs[1..])) + Flatten(ys);
      }
    }
  }

  /** A sequence without arrays is already flat. */
  lemma {:induction false} FlattenFlat(xs: seq<Value>)
    requires forall i | 0 <= i < |xs| :: !xs[i].Arr?
    ensures Flatten(xs) == xs
  {
    if xs != [] {
      FlattenFlat(xs[1..]);
    }
  }

  /** Flattening twice is flattening once. */
  lemma FlattenIdempotent(xs: seq<Value>)
    ensures Flatten(Flatten(xs)) == Flatten(xs)
  {
    FlattenFlat(Flatten(xs));
  }
}

=== FILE: values.dfy ===
/** JavaScript values as the settings store sees them: the entries of the
    config queue, the values in the key cache and the merged result.

    Function values are not part of `Value`: the only function the store
    inspects is the normalizer, which the store holds separately. Numbers
    are modelled as integers. */
module JsValues {

  datatype Option<+T> = None | Some(value: T)

  datatype Value =
    | Undefined
    | Null
    | Bool(b: bool)
    | Num(n: int)
    | Str(s: string)
    | Arr(elems: seq<Value>)
    | Obj(fields: map<string, Value>)

  /** JavaScript truthiness, as tested by `if (config)`. */
  predicate Truthy(v: Value) {
    match v
    case Undefined | Null => false
    case Bool(b) => b
    case Num(n) => n != 0
    case Str(s) => s != ""
    case Arr(_) | Obj(_) => true
  }

  /** Property read `obj[key]`: a missing property reads as `undefined`. */
  function Prop(m: map<string, Value>, key: string): Value {
    if key in m then m[key] else Undefined
  }

  function Digit(d: nat): (c: char)
    requires d < 10
    ensures '0' <= c <= '9'
  {
    ('0' as int + d) as char
  }

  /** The decimal property name of array or string index `n`. */
  function Decimal(n: nat): (r: string)
    ensures |r| >= 1
    ensures n >= 10 ==> |r| >= 2
  {
    if n < 10 then [Digit(n)] else Decimal(n / 10) + [Digit(n % 10)]
  }

  /** Distinct indices have distinct property names. */
  lemma {:induction false} DecimalInjective(m: nat, n: nat)
    requires Decimal(m) == Decimal(n)
    ensures m == n
  {
    if m < 10 && n < 10 {
      assert Decimal(m)[0] == Decimal(n)[0];
    } else if m >= 10 && n >= 10 {
      var dm, dn := Decimal(m), Decimal(n);
      assert dm[|dm| - 1] == Digit(m % 10) && dn[|dn| - 1] == Digit(n % 10);
      assert dm[..|dm| - 1] == Decimal(m / 10);
      assert dn[..|dn| - 1] == Decimal(n / 10);
      DecimalInjective(m / 10, n / 10);
    }
  }

  /** An object whose property `Decimal(i)` holds `xs[i]`, the view of an
      array (or of a string's characters) that a `for ... in` loop has. */
  function Indexed(xs: seq<Value>): (r: map<string, Value>)
    ensures forall i | 0 <= i < |xs| :: Decimal(i) in r && r[Decimal(i)] == xs[i]
    ensures forall k | k in r :: exists i :: 0 <= i < |xs| && k == Decimal(i)
  {
    assert forall i, j | 0 <= i < |xs| && 0 <= j < |xs| && Decimal(i) == Decimal(j) :: i == j by {
      forall i, j | 0 <= i < |xs| && 0 <= j < |xs| && Decimal(i) == Decimal(j) ensures i == j {
        DecimalInjective(i, j);
      }
    }
    map i | 0 <= i < |xs| :: Decimal(i) := xs[i]
  }

  /** The one-character strings of `s`, as a string's indices read them. */
  function Chars(s: string): seq<Value> {
    seq(|s|, i requires 0 <= i < |s| => Str([s[i]]))
  }

  /** The own enumerable properties that `for (key in v)` filtered by
      `v.hasOwnProperty(key)` visits: the fields of an object, the indices
      of an array or a string, and none for any other value. */
  function OwnEntries(v: Value): map<string, Value> {
    match v
    case Obj(f) => f
    case Arr(xs) => Indexed(xs)
    case Str(s) => Indexed(Chars(s))
    case _ => map[]
  }
}
